=== FILE: README.md ===
# Reserve/commit arena and PCG32, modelled in Dafny

This project models two parts of a small Rust program:

- **The bump arena** (`src/arena.rs`). It reserves one large range of virtual address space from the operating system and commits it page by page as a cursor advances. Allocations are 8-byte aligned. The arena can be rewound to a checkpoint.
- **The PCG32 generator** (`src/prng.rs`). Its 64-bit linear congruential state is stepped on every draw, and each 32-bit output is mixed by an XSH RR permutation.

The model is split into three files:

- `usize.dfy` (module `Usize`): 64-bit machine words as bounded integers.
  - Rust's `wrapping_add`/`wrapping_sub` and the release-build `+`/`-` are written out modulo 2^64.
  - `&` is defined bit by bit; `!` is defined as `2^64 - 1 - m`, and its contract states that it shares no bit with `m`.
  - Lemmas tie these to ordinary arithmetic.
- `arena.dfy` (module `Arena`): each arena operation as a step function on the arena's fields.
  - The step functions are `Created`, `PushStep` and `PopToStep`.
  - Lemmas state what each operation promises and what it does not.
  - The class `Arena.Arena` performs the same operations in place on its fields and a byte array, and is proved to agree with the step functions.
  - The operating system is an oracle: every reserve or commit call takes the OS's answer as a boolean argument.
  - Every commit request is kept in a ghost log. This lets the model compare what the arena believes is committed with what was actually granted.
- `prng.dfy` (module `Pcg`):
  - the LCG step on `u64`, with its inverse;
  - the output permutation on `bv64`/`bv32` bits;
  - the seeding procedure;
  - the class `Pcg.Pcg32`, whose `NextU32` updates the state in place.

Pointers are offsets from the arena's base address. A null pointer is `None`.

Behaviours of the code that the model keeps as written:

- **The commit gap.** `new` commits only one page but sets `commit_pos` to the whole rounded commit size. `Arena.CreatedCommitGap` proves that the committed prefix covers `commit_pos` exactly when the commit size is at most one page.
- **`commit_pos` may exceed the reservation.** After `new`, `commit_pos` can be larger than `reserve_size` (`Arena.CreatedCommitPosBeyondReserve`). The arena invariant, the predicate `Consistent`, has three conditions: `1 <= commit_size`, `pos <= commit_pos <= reserve_size`, and `reserve_size + commit_size <= 2^64`. As long as the rounded sizes do not overflow, it holds after `new` exactly when the requested commit size is at least 1 and fits in the rounded reservation (`Arena.CreatedConsistent`). Once it holds, `push` and `pop_to` keep it.
- **The commit round-up can wrap.** When `reserve_size + commit_size > 2^64`, rounding the new end up to the commit size in `push` (src/arena.rs:62) can wrap to 0, so `push` succeeds with `commit_pos` below the new `pos`. This state is reachable: `new(2^64 - p, 2p)` with a power-of-two page size `p` of at least 8, then a granted push of `2^64 - 2p` bytes, then a push of 8 bytes (`Arena.CreatedForOverflow`, `Arena.ReachRoundUpOverflow`, `Arena.PushRoundUpWraps`). The ordering `pos <= commit_pos <= reserve_size` alone is therefore not kept by `push`; the third condition of `Consistent` is what rules this out.
- **A commit size of 0.** `new` then records a commit position of 0, and every push keeps it at 0; each commit request a push then makes is for 0 bytes (`Arena.CreatedZeroCommitSize`, `Arena.PushFromZeroCommitSize`).
- **The capacity check can wrap.** `wrapping_add` in `push` can wrap, so `push` can succeed with a block that runs past the reservation (`Arena.PushWrapsPastCapacityCheck`).
- **`pop_to(0)`** panics, like any target beyond the cursor.
- **The page size.** `allign_up` never rounds below `size` for a non-zero alignment (`Arena.AlignUpBetween`), but it is guaranteed to round to a multiple of the alignment only for power-of-two alignments (`Arena.AlignUpNonPowerOfTwo`). The commit position still stays on a page boundary, because the commit size and the reservation are page multiples (`Arena.PushKeepsPageMultiple`). The model does not assume the OS page size is a power of two; only the lemmas that need it require it.

## Model

| member | source | states |
|---|---|---|
| Usize.WrappingAdd | src/arena.rs:54 | `wrapping_add` is the exact sum below 2^64, and the sum minus 2^64 otherwise |
| Usize.WrappingSub | src/arena.rs:68 | unchecked `-` is the exact difference when it is non-negative, and the difference plus 2^64 otherwise |
| Usize.BitAnd | src/arena.rs:20 | `x & y` keeps only bits set in both, so it is at most either operand |
| Usize.BitNot | src/arena.rs:18 | `!m` shares no bit with `m`, and together they cover all 64 bits |
| Usize.BitAndNot | src/arena.rs:18-20 | masking with `!m` removes exactly the bits that masking with `m` keeps |
| Usize.BitAndLowMask | src/arena.rs:17-20 | masking with 2^k - 1 is the remainder by 2^k |
| Usize.BitAndMultiple | src/arena.rs:20 | masking with a multiple of 2^k leaves a multiple of 2^k |
| Arena.AlignUp | src/arena.rs:16-21 | the result is at most `size + alignment - 1` (wrapped) and has none of the bits of `alignment - 1` set |
| Arena.AlignUpBetween | src/arena.rs:16-21 | for any non-zero alignment and no overflow, the result lies between `size` and `size + alignment - 1` |
| Arena.AlignUpPowerOfTwo | src/arena.rs:16-21 | for a power-of-two alignment, the result is a multiple of the alignment in `[size, size + alignment)` |
| Arena.AlignUpLeast | src/arena.rs:16-21 | for a power-of-two alignment, the result is the least multiple of the alignment not below `size` |
| Arena.AlignUpExact | src/arena.rs:16-21 | a size that is already a multiple of a power-of-two alignment is left unchanged |
| Arena.AlignUpNonPowerOfTwo | src/arena.rs:16-21 | an alignment of 12288 rounds 1 to 4096, which is not a multiple of 12288 |
| Arena.AlignUpZero | src/arena.rs:17-20 | alignment 0 wraps the mask to all ones, and the result is 0 for every size |
| Arena.AlignUpOfZero | src/arena.rs:16-21 | rounding 0 up to any non-zero alignment gives 0 |
| Arena.AlignUpKeepsMultiple | src/arena.rs:16-21 | rounding up to any multiple of a power of two `p`, 0 included, gives a multiple of `p` |
| Arena.InitialCommit | src/arena.rs:31-40 | `new` asks for at most one commit, exactly when the reservation was granted; if granted, exactly the first page at the base is committed, and if refused, nothing is |
| Arena.Created | src/arena.rs:25-49 | `new` succeeds iff both OS calls succeed, and then the cursor is 0 and `commit_pos` is the commit size |
| Arena.CreatedRoundsToPages | src/arena.rs:25-49 | `new` succeeds iff both OS calls succeed; both sizes are rounded up to whole pages; `pos` is 0 and `commit_pos` is the rounded commit size |
| Arena.CreatedConsistent | src/arena.rs:25-49 | without overflow, the new arena satisfies `Consistent` (`1 <= commit_size`, `pos <= commit_pos <= reserve_size`, `reserve_size + commit_size <= 2^64`) iff the requested commit size is non-zero and fits in the rounded reservation |
| Arena.CreatedWholePages | src/arena.rs:25-49 | page multiples are kept as they are: a 64-page reservation with a 32-page commit size |
| Arena.CreatedCommitPosBeyondReserve | src/arena.rs:28-47 | a one-page reservation with a two-page commit size gets `commit_pos` beyond `reserve_size` |
| Arena.CreatedCommitGap | src/arena.rs:36-47 | the committed pages cover `commit_pos` after `new` iff the commit size is at most one page |
| Arena.PushStep | src/arena.rs:51-82 | a null result changes nothing; the sizes never change; the block's end, taken modulo 2^64, is the new cursor, which lies within the reservation; at most one commit is asked for |
| Arena.PushOutcomes | src/arena.rs:51-82 | push returns null iff the aligned end exceeds the reservation or a needed commit is refused, and then changes nothing; a commit is requested iff the end passes `commit_pos` within the reservation; on success the block starts at the aligned cursor and the cursor moves to its end |
| Arena.PushPlacement | src/arena.rs:53-81 | a returned block is 8-aligned and starts less than 8 bytes past the cursor |
| Arena.PushCommitRange | src/arena.rs:61-76 | a commit request starts at `commit_pos`, is non-empty, ends at the end rounded to the commit size or clamped to the reservation, and covers the new end; after a successful push `commit_pos` is unchanged when nothing was requested and is the end of the requested range otherwise |
| Arena.PushPreservesConsistent | src/arena.rs:51-82 | push keeps all three conditions of `Consistent` and the sizes, and never lowers `commit_pos` |
| Arena.PushKeepsCommittedPrefix | src/arena.rs:61-76 | if the granted commits covered `commit_pos` before a push, they still cover it afterwards |
| Arena.PushWrapsPastCapacityCheck | src/arena.rs:54-59 | when the aligned end wraps to 0, push succeeds with a block that runs past the reservation, and the cursor becomes 0 |
| Arena.PushWithZeroCommitSize | src/arena.rs:61-76 | with commit size 0, a push past `commit_pos` asks for the wrapped length `0 - commit_pos`, then sets `commit_pos` to 0 below the new cursor |
| Arena.CreatedZeroCommitSize | src/arena.rs:29-47 | `new` with commit size 0 records a commit position of 0 |
| Arena.PushFromZeroCommitSize | src/arena.rs:61-76 | from commit size 0 and commit position 0, a push keeps the commit position at 0 and every request is for 0 bytes at offset 0 |
| Arena.PushKeepsPageMultiple | src/arena.rs:61-76 | with a page-multiple reservation and commit size, push keeps `commit_pos` a multiple of a power-of-two page size |
| Arena.PushWithCommit | src/arena.rs:51-82 | a granted push whose end is inside the reservation but past `commit_pos`, and whose rounded end does not pass the reservation, returns the aligned offset, moves the cursor to the end and `commit_pos` to the rounded end, after one commit request at the old `commit_pos` for the difference modulo 2^64 |
| Arena.CreatedForOverflow | src/arena.rs:25-49 | `new(2^64 - p, 2p)` with a power-of-two page size `p` succeeds with both sizes kept, so `reserve_size + commit_size > 2^64` |
| Arena.ReachRoundUpOverflow | src/arena.rs:51-82 | from that arena a granted push of `2^64 - 2p` bytes returns offset 0 and leaves `pos == commit_pos == 2^64 - 2p`, so `pos <= commit_pos <= reserve_size` holds |
| Arena.PushRoundUpWraps | src/arena.rs:61-76 | that state breaks `Consistent`, and from it a push of 8 bytes wraps the commit round-up to 0: it succeeds with `commit_pos` 0, below the new `pos`, after a commit request for the wrapped length `0 - commit_pos` = `2p` |
| Arena.PopToRewinds | src/arena.rs:101-106 | `pop_to` succeeds iff `0 < target <= pos`; it then sets `pos` to the target, keeps every other field and keeps the invariant |
| Arena.PopToStep | src/arena.rs:101-106 | a rewind never moves the cursor forward nor to 0, and keeps `commit_pos` |
| Arena.NoWrapTail | src/arena.rs:51-82 | the no-overflow condition on a run of pushes holds for the rest of the run after the first push |
| Arena.PushAllMonotone | src/arena.rs:51-82 | a run of pushes keeps the invariant and the sizes, and neither the cursor nor `commit_pos` goes down |
| Arena.BlocksInRange | src/arena.rs:51-82 | every block a run of pushes hands out is 8-aligned and lies between the starting cursor and the final cursor |
| Arena.BlocksDisjoint | src/arena.rs:51-82 | the blocks a run of pushes hands out are in address order and do not overlap |
| Arena.RollbackReusesOffset | src/arena.rs:97-106 | after pushes and `pop_to(checkpoint)`, the cursor is the checkpoint again and committed memory is kept; a push that would succeed at the checkpoint succeeds after the rollback at the same address |
| Arena.AlignUpToNextMultiple | src/arena.rs:62 | an end a little past a power-of-two commit size rounds to twice that size |
| Arena.AlignUpPastEight | src/arena.rs:53 | a cursor in 9..16 aligns to 16 |
| Arena.ScenarioFirstPush | src/arena.rs:51-82 | a 10-byte push into a fresh 64-page arena returns offset 0, moves the cursor to 10 and commits nothing |
| Arena.ScenarioSecondPush | src/arena.rs:51-82 | a later 32-page push returns offset 16 and commits exactly one more 32-page granule |
| Arena.CommitOnDemandScenario | src/arena.rs:25-82 | `new` then two pushes: the second push triggers exactly one commit, of the rounded shortfall, and `commit_pos` grows by exactly that amount |
| Arena.Arena.Reserved | src/arena.rs:42-48 | the struct literal: cursor 0, commit position equal to the commit size, and a fresh reservation of `reserve_size` bytes |
| Arena.Arena.New | src/arena.rs:25-49 | the arena is null iff `Created` fails; otherwise it holds the fields `Created` gives and has logged the one-page initial commit |
| Arena.Arena.Push | src/arena.rs:51-82 | the new fields, the returned pointer and the commit requests are those of `PushStep`; the invariant and the committed prefix are preserved |
| Arena.Arena.PushZeroed | src/arena.rs:84-93 | as `Push`; on success the block's bytes are zero and every other byte is unchanged |
| Arena.Arena.Pos | src/arena.rs:97-99 | the current cursor, usable as a `pop_to` checkpoint |
| Arena.Arena.PopTo | src/arena.rs:101-106 | panics, changing nothing, iff `PopToStep` panics; otherwise the fields are those `PopToStep` gives |
| Pcg.Step | src/prng.rs:18 | the wrapping LCG step is undone by `Unstep`, which multiplies by the inverse of the multiplier modulo 2^64 |
| Pcg.StepUnstep | src/prng.rs:18 | every state has a predecessor, so the step is a permutation of the 2^64 states |
| Pcg.StepInjective | src/prng.rs:18 | two states step to the same state iff they are equal |
| Pcg.StepAlternatesParity | src/prng.rs:18 | with an odd increment, the step flips the low bit of the state |
| Pcg.XorshiftedLowBits | src/prng.rs:19 | for i < 19, bit i of the xorshifted word is bit i+27 xor bit i+45 of the old state |
| Pcg.XorshiftedHighBits | src/prng.rs:19 | for 19 <= i < 32, bit i of the xorshifted word is bit i+27 of the old state |
| Pcg.Rotation | src/prng.rs:20 | the rotation amount is below 32 |
| Pcg.RotateRightBits | src/prng.rs:22 | bit i of the rotated word is bit (i + r) mod 32 of the input |
| Pcg.RotateRight | src/prng.rs:21-22 | `rotate_right` equals the shift-or form: `x >> r` or'ed with `x << ((-r) & 31)` |
| Pcg.XshRr | src/prng.rs:19-22 | the output is the shift-or rotation of the xorshifted word by the top five bits of the old state |
| Pcg.NegateMask | src/prng.rs:21 | `(-r) & 31` is `32 - r` for a non-zero rotation |
| Pcg.IncrementFor | src/prng.rs:30 | the increment is odd and keeps the low 63 bits of the sequence number |
| Pcg.Seeded | src/prng.rs:29-36 | the initial state is recovered from the seeded state by undoing the last step and subtracting `step(0)` |
| Pcg.SeededInjective | src/prng.rs:29-36 | for one increment, different initial states give different seeded states |
| Pcg.Pcg32.Default | src/prng.rs:6-13 | the default state and increment constants; the increment is odd |
| Pcg.Pcg32.NextU32 | src/prng.rs:16-23 | the state takes one LCG step, the increment is unchanged (so it stays odd), and the result is the output of the old state |
| Pcg.Pcg32.New | src/prng.rs:29-36 | the increment comes from the sequence number and is odd; the state is `step(step(0) + init_state)` |

## Left out

- The platform layer (`src/platform.rs`: reserving, committing and querying the page size) is not part of this model. Its answers are parameters: `reserveGranted`, `commitGranted`, `granted` and `pageSize`. No memory is actually reserved, committed or released.
- Pointer validity, lifetimes and page faults are not modelled. Pointers are offsets from the base, and reading uncommitted memory is not a fault in the model. The ghost commit log makes such memory visible.
- Overflow panics in debug builds are not modelled. `allign_up`'s `+`/`-` and `push`'s `-` are modelled as they behave in a release build: wrapping modulo 2^64.
- The arena has no `Drop`; releasing the reservation is not part of the source, nor of the model.
- `pop_to`'s panic is modelled as a returned `panicked` flag with the arena unchanged. Unwinding is not modelled.
- Arena.Arena.PushZeroed: requires that the aligned end of the allocation does not wrap past 2^64 unless the wrapped end fails the capacity check. A wrapped end that passes the check makes `push` succeed with a block running past the reservation, and `write_bytes` would then write outside it, which is undefined behaviour.
- `next_f32` (`src/prng.rs:25-27`) is not modelled as an operation, because it divides floats. Only its effect on the state (one `next_u32` step) is modelled, inside `Pcg.Pcg32.New`.
- `src/matrix.rs` and `src/main.rs` are not part of this model. They only use the arena and the generator.
- The full-period property of the LCG is not proved; only that the step is a permutation and flips the low bit under an odd increment.

=== FILE: arena.dfy ===
/**
 * The reserve/commit bump arena.
 *
 * The arena owns one reserved address range. `base` is taken as offset 0, so
 * every pointer the arena hands out is an offset into that range, and the
 * range itself is an array of `reserveSize` bytes. The two operating-system
 * calls (reserve a range, commit a sub-range) are an oracle: the caller of
 * the model passes in the answer the OS gives, success or failure, and every
 * commit request is recorded in a ghost log so that what the arena believes
 * is committed can be compared with what was actually asked for and granted.
 *
 * Arithmetic follows the source exactly: `wrapping_add` where it says so, and
 * the plain `+` and `-` as they behave without overflow checks (modulo 2^64).
 * The step functions (`Created`, `PushStep`, `PopToStep`) give each operation
 * on the arena's five fields as a value; the class `Arena` performs the same
 * operations in place and is proved to agree with them.
 */
module Arena {
  import opened Usize

  datatype Option<T> = None | Some(value: T)

  /* ---------------------------------------------------------------------
   * allign_up
   * ------------------------------------------------------------------- */

  /**
   * `(size + (alignment - 1)) & !(alignment - 1)`: the bitmask round-up.
   * The result never exceeds the bumped size and has none of the bits of
   * `alignment - 1`; that makes it a multiple of `alignment` only when
   * `alignment` is a power of two.
   */
  function AlignUp(size: usize, alignment: usize): (r: usize)
    ensures r <= WrappingAdd(size, WrappingSub(alignment, 1))
    ensures BitAnd(r, WrappingSub(alignment, 1)) == 0
  {
    var mask := WrappingSub(alignment, 1);
    BitAndDisjoint(WrappingAdd(size, mask), BitNot(mask), mask);
    BitAnd(WrappingAdd(size, mask), BitNot(mask))
  }

  /**
   * For any non-zero alignment, and as long as `size + alignment - 1` does not
   * overflow, the bitmask never rounds below `size` nor by more than
   * `alignment - 1`.
   */
  lemma AlignUpBetween(size: usize, alignment: usize)
    requires 1 <= alignment && size + alignment - 1 < WORD
    ensures size <= AlignUp(size, alignment) <= size + alignment - 1
  {
    var mask := alignment - 1;
    var bump := size + mask;
    BitAndNot(bump, mask);
    assert AlignUp(size, alignment) == bump - BitAnd(bump, mask);
  }

  /**
   * For a power-of-two alignment without overflow, the bitmask round-up is
   * a multiple of the alignment in `[size, size + alignment)`.
   */
  lemma AlignUpPowerOfTwo(size: usize, alignment: usize)
    requires IsPowerOfTwo(alignment) && size + alignment - 1 < WORD
    ensures AlignUp(size, alignment) % alignment == 0
    ensures size <= AlignUp(size, alignment) < size + alignment
  {
    AlignUpDropsRemainder(size, alignment);
    RoundDown(size + alignment - 1, alignment, AlignUp(size, alignment));
  }

  /** Without overflow, masking off the low bits subtracts the remainder. */
  lemma AlignUpDropsRemainder(size: usize, alignment: usize)
    requires IsPowerOfTwo(alignment) && size + alignment - 1 < WORD
    ensures AlignUp(size, alignment) == (size + alignment - 1) - (size + alignment - 1) % alignment
  {
    var k: nat :| Pow2(k) == alignment;
    var mask := alignment - 1;
    assert WrappingSub(alignment, 1) == mask && WrappingAdd(size, mask) == size + mask;
    BitAndNotLowMask(size + mask, k);
  }

  /**
   * ... and it is the least such multiple: no multiple of the alignment lies
   * between `size` and the result.
   */
  lemma AlignUpLeast(size: usize, alignment: usize, m: int)
    requires IsPowerOfTwo(alignment) && size + alignment - 1 < WORD
    requires m % alignment == 0 && size <= m
    ensures AlignUp(size, alignment) <= m
  {
    AlignUpPowerOfTwo(size, alignment);
    var r := AlignUp(size, alignment);
    if m < r {
      var i, j := m / alignment, r / alignment;
      DivMod(m, alignment);
      DivMod(r, alignment);
      MulOrder(alignment, i, j);
      assert false;
    }
  }

  /** One step of the bitwise AND: appending a 0 bit to `x` and a 1 bit to `y`. */
  lemma BitAndDouble(x: nat, y: nat)
    ensures BitAnd(2 * x, 2 * y + 1) == 2 * BitAnd(x, y)
  {
  }

  /** For an alignment that is not a power of two the result need not be a multiple of it. */
  lemma AlignUpNonPowerOfTwo()
    ensures AlignUp(1, 12288) == 4096 && 4096 % 12288 != 0
  {
    assert BitAnd(3, 2) == 2;
    BitAndDouble(3, 2);
    BitAndDouble(6, 5);
    BitAndDouble(12, 11);
    BitAndDouble(24, 23);
    BitAndDouble(48, 47);
    BitAndDouble(96, 95);
    BitAndDouble(192, 191);
    BitAndDouble(384, 383);
    BitAndDouble(768, 767);
    BitAndDouble(1536, 1535);
    BitAndDouble(3072, 3071);
    BitAndDouble(6144, 6143);
    BitAndNot(12288, 12287);
  }

  /* ---------------------------------------------------------------------
   * The arena's fields and the platform oracle
   * ------------------------------------------------------------------- */

  /** The fields of `Arena` other than `base`, which is offset 0. */
  datatype Fields = Fields(reserveSize: usize, commitSize: usize, pos: usize, commitPos: usize)

  /** One request to commit `length` bytes at offset `start`, and whether the OS granted it. */
  datatype CommitCall = CommitCall(start: usize, length: usize, granted: bool)

  /** Byte `i` of the reservation lies in a range whose commit the OS granted. */
  ghost predicate Committed(log: seq<CommitCall>, i: int)
  {
    exists k | 0 <= k < |log| :: log[k].granted && log[k].start <= i < log[k].start + log[k].length
  }

  /** Every byte below offset `n` has actually been committed. */
  ghost predicate CoversPrefix(log: seq<CommitCall>, n: int)
  {
    forall i | 0 <= i < n :: Committed(log, i)
  }

  /**
   * The bookkeeping relation the arena is meant to keep:
   * `pos <= commit_pos <= reserve_size`, a usable commit granularity, and
   * room to round any position up to it without overflow.
   */
  ghost predicate Consistent(f: Fields)
  {
    1 <= f.commitSize && f.pos <= f.commitPos <= f.reserveSize && f.reserveSize + f.commitSize <= WORD
  }

  /* ---------------------------------------------------------------------
   * Arena::new
   * ------------------------------------------------------------------- */

  /**
   * The fields `new` builds, or `None` when the reservation or the initial
   * one-page commit fails.
   */
  function Created(reserveSize: usize, commitSize: usize, pageSize: usize,
                   reserveGranted: bool, commitGranted: bool): (r: Option<Fields>)
    ensures r.Some? <==> reserveGranted && commitGranted
    ensures r.Some? ==> r.value.pos == 0 && r.value.commitPos == r.value.commitSize
  {
    var actualReserve := AlignUp(reserveSize, pageSize);
    var actualCommit := AlignUp(commitSize, pageSize);
    if !reserveGranted then None
    else if !commitGranted then None
    else Some(Fields(actualReserve, actualCommit, 0, actualCommit))
  }

  /**
   * The only commit `new` makes: one page at offset 0, made once the
   * reservation succeeded. When the OS grants it, exactly the first page is
   * committed; when it refuses, nothing is.
   */
  function InitialCommit(pageSize: usize, reserveGranted: bool, commitGranted: bool): (calls: seq<CommitCall>)
    ensures |calls| <= 1
    ensures calls != [] <==> reserveGranted
    ensures reserveGranted && commitGranted ==> forall i :: Committed(calls, i) <==> 0 <= i < pageSize
    ensures !commitGranted ==> forall i :: !Committed(calls, i)
  {
    if reserveGranted then
      SingleCallCommits(CommitCall(0, pageSize, commitGranted));
      [CommitCall(0, pageSize, commitGranted)]
    else []
  }

  /** A log of one call has committed exactly that call's range, if it was granted. */
  lemma SingleCallCommits(c: CommitCall)
    ensures forall i :: Committed([c], i) <==> c.granted && c.start <= i < c.start + c.length
  {
    forall i | c.granted && c.start <= i < c.start + c.length
      ensures Committed([c], i)
    {
      assert [c][0] == c;
    }
  }

  /**
   * `new` fails exactly when one of the two OS calls fails; otherwise both
   * sizes are rounded up to the page size, the cursor is 0 and the commit
   * position is the rounded commit size.
   */
  lemma CreatedRoundsToPages(reserveSize: usize, commitSize: usize, pageSize: usize,
                             reserveGranted: bool, commitGranted: bool)
    requires IsPowerOfTwo(pageSize)
    requires reserveSize + pageSize <= WORD && commitSize + pageSize <= WORD
    ensures var r := Created(reserveSize, commitSize, pageSize, reserveGranted, commitGranted);
      && (r.Some? <==> reserveGranted && commitGranted)
      && (r.Some? ==>
            && r.value.reserveSize % pageSize == 0
            && reserveSize <= r.value.reserveSize < reserveSize + pageSize
            && r.value.commitSize % pageSize == 0
            && commitSize <= r.value.commitSize < commitSize + pageSize
            && r.value.pos == 0
            && r.value.commitPos == r.value.commitSize)
  {
    AlignUpPowerOfTwo(reserveSize, pageSize);
    AlignUpPowerOfTwo(commitSize, pageSize);
  }

  /**
   * When the rounded sizes cannot overflow, `new` establishes `Consistent`
   * (`1 <= commit_size`, `pos <= commit_pos <= reserve_size` and
   * `reserve_size + commit_size <= 2^64`) exactly when the requested commit
   * size is non-zero and fits in the rounded reservation.
   */
  lemma CreatedConsistent(reserveSize: usize, commitSize: usize, pageSize: usize)
    requires IsPowerOfTwo(pageSize)
    requires reserveSize + commitSize + 2 * pageSize <= WORD
    ensures var r := Created(reserveSize, commitSize, pageSize, true, true);
      && r.Some?
      && (Consistent(r.value) <==> 1 <= commitSize <= r.value.reserveSize)
  {
    var rs := AlignUp(reserveSize, pageSize);
    AlignUpPowerOfTwo(reserveSize, pageSize);
    AlignUpPowerOfTwo(commitSize, pageSize);
    if commitSize <= rs {
      AlignUpLeast(commitSize, pageSize, rs);
    }
    if commitSize == 0 {
      AlignUpLeast(0, pageSize, 0);
    }
  }

  /**
   * With a commit size above the reserve size, `new` leaves
   * `commit_pos > reserve_size`: asking for one page of reservation and two
   * pages of commit granularity gives a commit position of two pages.
   */
  lemma CreatedCommitPosBeyondReserve(pageSize: usize)
    requires IsPowerOfTwo(pageSize) && 3 * pageSize <= WORD
    ensures Created(pageSize, 2 * pageSize, pageSize, true, true)
         == Some(Fields(pageSize, 2 * pageSize, 0, 2 * pageSize))
  {
    DivModUnique(pageSize, pageSize, 1, 0);
    DivModUnique(2 * pageSize, pageSize, 2, 0);
    AlignUpPowerOfTwo(pageSize, pageSize);
    AlignUpLeast(pageSize, pageSize, pageSize);
    AlignUpPowerOfTwo(2 * pageSize, pageSize);
    AlignUpLeast(2 * pageSize, pageSize, 2 * pageSize);
  }

  /**
   * `new` commits one page but records the rounded commit size as committed:
   * the recorded commit position is backed by real commits exactly when it
   * does not exceed one page, i.e. when the commit size is at most a page.
   */
  lemma CreatedCommitGap(reserveSize: usize, commitSize: usize, pageSize: usize)
    requires IsPowerOfTwo(pageSize) && commitSize + pageSize <= WORD
    ensures var r := Created(reserveSize, commitSize, pageSize, true, true);
      && r.Some?
      && (CoversPrefix(InitialCommit(pageSize, true, true), r.value.commitPos) <==> commitSize <= pageSize)
  {
    var log := InitialCommit(pageSize, true, true);
    var c := AlignUp(commitSize, pageSize);
    AlignUpPowerOfTwo(commitSize, pageSize);
    if commitSize <= pageSize {
      AlignUpLeast(commitSize, pageSize, pageSize);
      forall i | 0 <= i < c ensures Committed(log, i) {
        assert log[0].start <= i < log[0].start + log[0].length;
      }
    } else {
      assert c > pageSize;
      assert !Committed(log, pageSize);
    }
  }

  /* ---------------------------------------------------------------------
   * Arena::push
   * ------------------------------------------------------------------- */

  /** What one `push` does: the new fields, the pointer (`None` is null) and the commits it asked for. */
  datatype Pushed = Pushed(fields: Fields, ptr: Option<usize>, calls: seq<CommitCall>)

  /**
   * `push(size)` on fields `f`, where `granted` is the OS's answer should a
   * commit be needed. A null result changes nothing; the sizes never change;
   * the end of a non-null block, taken modulo 2^64, is the new cursor, which
   * lies within the reservation; at most one commit is asked for.
   */
  function PushStep(f: Fields, size: usize, granted: bool): (out: Pushed)
    ensures out.ptr.None? ==> out.fields == f
    ensures out.fields.reserveSize == f.reserveSize && out.fields.commitSize == f.commitSize
    ensures out.ptr.Some? ==> out.fields.pos == WrappingAdd(out.ptr.value, size) <= f.reserveSize
    ensures |out.calls| <= 1
  {
    var positionAligned := AlignUp(f.pos, 8);
    var newPosition := WrappingAdd(positionAligned, size);
    if newPosition > f.reserveSize then
      Pushed(f, None, [])
    else if newPosition <= f.commitPos then
      Pushed(f.(pos := newPosition), Some(positionAligned), [])
    else
      var rounded := AlignUp(newPosition, f.commitSize);
      var newCommitPos := if rounded > f.reserveSize then f.reserveSize else rounded;
      var call := CommitCall(f.commitPos, WrappingSub(newCommitPos, f.commitPos), granted);
      if !granted then
        Pushed(f, None, [call])
      else
        Pushed(f.(pos := newPosition, commitPos := newCommitPos), Some(positionAligned), [call])
  }

  /**
   * The three outcomes of `push`: null with nothing changed and no OS call
   * when the aligned end passes the reservation; null with nothing changed
   * when a needed commit is refused; otherwise the aligned offset, with the
   * cursor at its end.
   */
  lemma PushOutcomes(f: Fields, size: usize, granted: bool)
    ensures var out := PushStep(f, size, granted);
      var positionAligned := AlignUp(f.pos, 8);
      var newPosition := WrappingAdd(positionAligned, size);
      && (out.ptr.None? <==> newPosition > f.reserveSize || (newPosition > f.commitPos && !granted))
      && (out.ptr.None? ==> out.fields == f)
      && (out.calls == [] <==> newPosition > f.reserveSize || newPosition <= f.commitPos)
      && (out.ptr.Some? ==> out.ptr.value == positionAligned && out.fields.pos == newPosition)
      && out.fields.reserveSize == f.reserveSize && out.fields.commitSize == f.commitSize
  {
  }

  /**
   * The allocation starts at the cursor rounded up to 8: an 8-aligned offset
   * at or after the old cursor and less than 8 bytes past it.
   */
  lemma PushPlacement(f: Fields, size: usize, granted: bool)
    requires f.pos + 8 <= WORD
    ensures var out := PushStep(f, size, granted);
      out.ptr.Some? ==> out.ptr.value % 8 == 0 && f.pos <= out.ptr.value < f.pos + 8
  {
    assert Pow2(3) == 8;
    AlignUpPowerOfTwo(f.pos, 8);
  }

  /**
   * When `push` needs more committed memory it asks for the range from the
   * old commit position up to the end rounded to the commit granularity and
   * clamped to the reservation; on a consistent arena that range is
   * non-empty and does not wrap.
   */
  lemma PushCommitRange(f: Fields, size: usize, granted: bool)
    requires Consistent(f)
    ensures var out := PushStep(f, size, granted);
      var newPosition := WrappingAdd(AlignUp(f.pos, 8), size);
      var rounded := AlignUp(newPosition, f.commitSize);
      out.calls != [] ==>
        && out.calls == [CommitCall(f.commitPos, out.calls[0].length, granted)]
        && 0 < out.calls[0].length
        && f.commitPos + out.calls[0].length == (if rounded > f.reserveSize then f.reserveSize else rounded)
        && newPosition <= f.commitPos + out.calls[0].length
    ensures var out := PushStep(f, size, granted);
      out.ptr.Some? ==>
        out.fields.commitPos == if out.calls == [] then f.commitPos else f.commitPos + out.calls[0].length
  {
    var newPosition := WrappingAdd(AlignUp(f.pos, 8), size);
    if f.commitPos < newPosition <= f.reserveSize {
      AlignUpBetween(newPosition, f.commitSize);
    }
  }

  /**
   * `push` keeps the arena consistent: the commit position never moves
   * back, the cursor stays at or below it, and the two sizes never change.
   */
  lemma PushPreservesConsistent(f: Fields, size: usize, granted: bool)
    requires Consistent(f)
    ensures var g := PushStep(f, size, granted).fields;
      && Consistent(g)
      && g.reserveSize == f.reserveSize && g.commitSize == f.commitSize
      && f.commitPos <= g.commitPos
  {
    PushCommitRange(f, size, granted);
  }

  /**
   * If everything below the commit position was really committed before a
   * `push`, it still is afterwards: `push` commits exactly the gap between
   * the old and the new commit position.
   */
  lemma PushKeepsCommittedPrefix(f: Fields, size: usize, granted: bool, log: seq<CommitCall>)
    requires Consistent(f) && CoversPrefix(log, f.commitPos)
    ensures var out := PushStep(f, size, granted);
      CoversPrefix(log + out.calls, out.fields.commitPos)
  {
    var out := PushStep(f, size, granted);
    var log' := log + out.calls;
    PushCommitRange(f, size, granted);
    forall i | 0 <= i < out.fields.commitPos ensures Committed(log', i) {
      if i < f.commitPos {
        assert Committed(log, i);
        var k :| 0 <= k < |log| && log[k].granted && log[k].start <= i < log[k].start + log[k].length;
        assert log'[k] == log[k];
      } else {
        assert log'[|log|] == out.calls[0];
      }
    }
  }

  /**
   * `wrapping_add` defeats the capacity check: a request of
   * `2^64 - position_aligned` bytes wraps the new position to 0, which passes
   * the check; the push succeeds, hands out a block that runs to 2^64,
   * past the reservation, and moves the cursor back to 0.
   */
  lemma PushWrapsPastCapacityCheck(f: Fields, size: usize)
    requires f.pos + 8 <= WORD && AlignUp(f.pos, 8) + size == WORD
    ensures var out := PushStep(f, size, true);
      && out == Pushed(f.(pos := 0), Some(AlignUp(f.pos, 8)), [])
      && out.ptr.value + size > f.reserveSize
  {
  }

  /** Rounding up to an alignment of 0 gives 0: the mask `!(0 - 1)` is 0. */
  lemma AlignUpZero(size: usize)
    ensures AlignUp(size, 0) == 0
  {
    assert BitNot(WrappingSub(0, 1)) == 0;
  }

  /**
   * With a commit granularity of 0 the round-up yields 0, so a push past the
   * commit position asks for the wrapped length `0 - commit_pos`, sets the
   * commit position to 0 and leaves `pos > commit_pos`.
   */
  lemma PushWithZeroCommitSize(f: Fields, size: usize)
    requires f.commitSize == 0
    requires f.commitPos < WrappingAdd(AlignUp(f.pos, 8), size) <= f.reserveSize
    ensures var out := PushStep(f, size, true);
      && out.ptr.Some?
      && out.fields.commitPos == 0 < out.fields.pos
      && out.calls == [CommitCall(f.commitPos, WrappingSub(0, f.commitPos), true)]
  {
    AlignUpZero(WrappingAdd(AlignUp(f.pos, 8), size));
  }

  /** `new` with a commit size of 0 records a commit position of 0. */
  lemma CreatedZeroCommitSize(reserveSize: usize, pageSize: usize, reserveGranted: bool, commitGranted: bool)
    ensures var r := Created(reserveSize, 0, pageSize, reserveGranted, commitGranted);
      r.Some? ==> r.value.commitSize == 0 && r.value.commitPos == 0
  {
    var mask := WrappingSub(pageSize, 1);
    assert WrappingAdd(0, mask) == mask;
    assert AlignUp(0, pageSize) == BitAnd(mask, BitNot(mask));
  }

  /**
   * From the state `new` builds with a commit size of 0, the commit position
   * stays 0 under every push, and every commit request is for 0 bytes at
   * offset 0: the wrapped length of `PushWithZeroCommitSize` does not arise.
   */
  lemma PushFromZeroCommitSize(f: Fields, size: usize, granted: bool)
    requires f.commitSize == 0 && f.commitPos == 0
    ensures var out := PushStep(f, size, granted);
      && out.fields.commitSize == 0 && out.fields.commitPos == 0
      && forall c | c in out.calls :: c.start == 0 && c.length == 0
  {
    AlignUpZero(WrappingAdd(AlignUp(f.pos, 8), size));
  }

  /** Every power of two below 2^64 divides 2^64. */
  lemma PowerOfTwoDividesWord(p: usize)
    requires IsPowerOfTwo(p)
    ensures WORD % p == 0
  {
    var k: nat :| Pow2(k) == p;
    Pow2Values();
    if k > 64 {
      Pow2Add(64, k - 64);
      assert false;
    }
    Pow2Add(k, 64 - k);
    DivModUnique(WORD, p, Pow2(64 - k), 0);
  }

  /**
   * Rounding up to any alignment that is a multiple of a power of two `p`
   * (including 0) gives a multiple of `p`: the mask `!(alignment - 1)` has
   * none of the low bits below `p`.
   */
  lemma AlignUpKeepsMultiple(size: usize, alignment: usize, p: usize)
    requires IsPowerOfTwo(p) && alignment % p == 0
    ensures AlignUp(size, alignment) % p == 0
  {
    var k: nat :| Pow2(k) == p;
    if alignment == 0 {
      AlignUpZero(size);
      DivModUnique(0, p, 0, 0);
    } else {
      var mask := alignment - 1;
      WordMinusMultiple(alignment, p);
      assert BitNot(mask) == WORD - alignment;
      BitAndMultiple(WrappingAdd(size, mask), BitNot(mask), k);
    }
  }

  /** `2^64 - a` is a multiple of a power of two `p` when `a` is. */
  lemma WordMinusMultiple(a: usize, p: usize)
    requires IsPowerOfTwo(p) && a % p == 0
    ensures (WORD - a) % p == 0
  {
    PowerOfTwoDividesWord(p);
    DivMod(WORD, p);
    DivMod(a, p);
    var n := WORD / p - a / p;
    assert WORD - a == p * n;
    DivModUnique(WORD - a, p, n, 0);
  }

  /**
   * The commit position stays on a page boundary: with a page-multiple
   * reservation and commit size, both the round-up and the clamp give a
   * page multiple, whether or not the commit size is a power of two.
   * `CreatedRoundsToPages` gives such a state after `new`.
   */
  lemma PushKeepsPageMultiple(f: Fields, size: usize, granted: bool, pageSize: usize)
    requires IsPowerOfTwo(pageSize)
    requires f.reserveSize % pageSize == 0 && f.commitSize % pageSize == 0 && f.commitPos % pageSize == 0
    ensures PushStep(f, size, granted).fields.commitPos % pageSize == 0
  {
    AlignUpKeepsMultiple(WrappingAdd(AlignUp(f.pos, 8), size), f.commitSize, pageSize);
  }

  /** Twice a power of two is a power of two. */
  lemma DoublePowerOfTwo(p: int)
    requires IsPowerOfTwo(p)
    ensures IsPowerOfTwo(2 * p)
  {
    var k: nat :| Pow2(k) == p;
    assert Pow2(k + 1) == 2 * p;
  }

  /**
   * The third condition of `Consistent` is needed, and `new` can break it:
   * `new(2^64 - p, 2p)` with page size `p` keeps both sizes, which are
   * already page multiples, so `reserve_size + commit_size > 2^64`.
   */
  lemma CreatedForOverflow(p: usize)
    requires IsPowerOfTwo(p) && 8 * p <= WORD
    ensures Created(WORD - p, 2 * p, p, true, true) == Some(Fields(WORD - p, 2 * p, 0, 2 * p))
  {
    DivModUnique(2 * p, p, 2, 0);
    WordMinusMultiple(p, p);
    AlignUpExact(WORD - p, p);
    AlignUpExact(2 * p, p);
  }

  /**
   * One granted push of `2^64 - 2p` bytes from that arena moves the cursor
   * and the commit position to `2^64 - 2p`, a state that satisfies
   * `pos <= commit_pos <= reserve_size` although the sizes overflow.
   */
  lemma ReachRoundUpOverflow(p: usize)
    requires IsPowerOfTwo(p) && 8 * p <= WORD
    ensures var out := PushStep(Fields(WORD - p, 2 * p, 0, 2 * p), WORD - 2 * p, true);
      out.ptr == Some(0) && out.fields == Fields(WORD - p, 2 * p, WORD - 2 * p, WORD - 2 * p)
  {
    ReachPushExact(p);
    PushFromStartToBoundary(Fields(WORD - p, 2 * p, 0, 2 * p), WORD - 2 * p);
  }

  /**
   * A granted push from offset 0 whose end needs a commit and is already a
   * multiple of the commit size moves both the cursor and the commit
   * position to that end.
   */
  lemma PushFromStartToBoundary(f: Fields, size: usize)
    requires f.pos == 0 && f.commitPos < size <= f.reserveSize
    requires AlignUp(size, f.commitSize) == size
    ensures PushStep(f, size, true).ptr == Some(0)
    ensures PushStep(f, size, true).fields == f.(pos := size, commitPos := size)
  {
    AlignUpOfZero(8);
    PushWithCommit(f, size, 0, size);
  }

  /** The end of that push is already a multiple of the commit size. */
  lemma ReachPushExact(p: usize)
    requires IsPowerOfTwo(p) && 8 * p <= WORD
    ensures AlignUp(WORD - 2 * p, 2 * p) == WORD - 2 * p
  {
    DoublePowerOfTwo(p);
    DivModUnique(2 * p, 2 * p, 1, 0);
    WordMinusMultiple(2 * p, 2 * p);
    AlignUpExact(WORD - 2 * p, 2 * p);
  }

  /** Rounding 0 up to any non-zero alignment gives 0. */
  lemma AlignUpOfZero(alignment: usize)
    requires alignment != 0
    ensures AlignUp(0, alignment) == 0
  {
  }

  /** A cursor at `2^64 - 2p`, for a multiple `p` of 8, is already 8-aligned. */
  lemma CursorAligned(p: usize)
    requires 0 < p && p % 8 == 0 && 8 * p <= WORD
    ensures AlignUp(WORD - 2 * p, 8) == WORD - 2 * p
  {
    var j := p / 8;
    assert p == 8 * j;
    DivModUnique(WORD - 2 * p, 8, WORD / 8 - 2 * j, 0);
    assert Pow2(3) == 8;
    AlignUpExact(WORD - 2 * p, 8);
  }

  /**
   * Rounding an end 8 bytes past `2^64 - q` up to a power of two `q > 8`
   * wraps: the bumped size is 7, and the only multiple of `q` not above it
   * is 0.
   */
  lemma CommitRoundUpWraps(q: usize)
    requires IsPowerOfTwo(q) && 8 < q
    ensures AlignUp(WORD - q + 8, q) == 0
  {
    var r := AlignUp(WORD - q + 8, q);
    assert WrappingAdd(WORD - q + 8, q - 1) == 7;
    DivModUnique(q, q, 1, 0);
    AlignUpKeepsMultiple(WORD - q + 8, q, q);
    DivModUnique(r, q, 0, r);
  }

  /**
   * From that state a push of 8 bytes wraps the round-up at `push`'s commit
   * step to 0: the commit position drops to 0, below the new cursor, and
   * the commit request asks for the wrapped length `0 - commit_pos`.
   */
  lemma PushRoundUpWraps(p: usize)
    requires IsPowerOfTwo(p) && p % 8 == 0 && 8 * p <= WORD
    ensures !Consistent(Fields(WORD - p, 2 * p, WORD - 2 * p, WORD - 2 * p))
    ensures PushStep(Fields(WORD - p, 2 * p, WORD - 2 * p, WORD - 2 * p), 8, true)
         == Pushed(Fields(WORD - p, 2 * p, WORD - 2 * p + 8, 0), Some(WORD - 2 * p),
                   [CommitCall(WORD - 2 * p, 2 * p, true)])
  {
    CursorAligned(p);
    DoublePowerOfTwo(p);
    CommitRoundUpWraps(2 * p);
    PushWithCommit(Fields(WORD - p, 2 * p, WORD - 2 * p, WORD - 2 * p), 8, WORD - 2 * p, 0);
  }

  /**
   * A granted push whose end lies in the reservation but past the commit
   * position: the cursor moves to the end, and the commit position to the
   * end rounded up, after one request for the difference.
   */
  lemma PushWithCommit(f: Fields, size: usize, aligned: usize, rounded: usize)
    requires AlignUp(f.pos, 8) == aligned && f.commitPos < aligned + size <= f.reserveSize
    requires AlignUp(aligned + size, f.commitSize) == rounded <= f.reserveSize
    ensures PushStep(f, size, true).ptr == Some(aligned)
    ensures PushStep(f, size, true).fields == f.(pos := aligned + size, commitPos := rounded)
    ensures PushStep(f, size, true).calls == [CommitCall(f.commitPos, WrappingSub(rounded, f.commitPos), true)]
  {
    assert WrappingAdd(aligned, size) == aligned + size;
    PushOutcomes(f, size, true);
  }

  /* ---------------------------------------------------------------------
   * Arena::pop_to
   * ------------------------------------------------------------------- */

  /** `pop_to` either rewinds the fields or panics. */
  datatype Popped = Rewound(fields: Fields) | Panicked

  /**
   * `pop_to(target)` on fields `f`. A rewind never moves the cursor forward
   * nor to 0, and gives back no committed memory.
   */
  function PopToStep(f: Fields, target: usize): (p: Popped)
    ensures p.Rewound? ==> 0 < p.fields.pos <= f.pos && p.fields.commitPos == f.commitPos
  {
    if target > f.pos || target == 0 then Panicked else Rewound(f.(pos := target))
  }

  /**
   * `pop_to(t)` panics exactly when `t` is ahead of the cursor or is 0;
   * otherwise it moves only the cursor, and keeps the arena consistent.
   */
  lemma PopToRewinds(f: Fields, target: usize)
    ensures PopToStep(f, target).Rewound? <==> 0 < target <= f.pos
    ensures PopToStep(f, target).Rewound? ==>
      var g := PopToStep(f, target).fields;
      g.pos == target && g.reserveSize == f.reserveSize && g.commitSize == f.commitSize
      && g.commitPos == f.commitPos && (Consistent(f) ==> Consistent(g))
  {
  }

  /* ---------------------------------------------------------------------
   * Sequences of pushes: disjoint blocks, and rolling back to a checkpoint
   * ------------------------------------------------------------------- */

  /** One `push(size)` together with the OS's answer should it need to commit. */
  datatype Request = Request(size: usize, granted: bool)

  /** A block handed out by a successful push. */
  datatype Block = Block(start: usize, size: usize)

  /** The fields after pushing each request in turn. */
  function PushAll(f: Fields, requests: seq<Request>): Fields
    decreases |requests|
  {
    if requests == [] then f
    else PushAll(PushStep(f, requests[0].size, requests[0].granted).fields, requests[1..])
  }

  /** The blocks those pushes hand out, in order (failed pushes hand out none). */
  function Blocks(f: Fields, requests: seq<Request>): seq<Block>
    decreases |requests|
  {
    if requests == [] then []
    else
      var out := PushStep(f, requests[0].size, requests[0].granted);
      (if out.ptr.Some? then [Block(out.ptr.value, requests[0].size)] else [])
      + Blocks(out.fields, requests[1..])
  }

  /** No request is large enough to wrap the end of an allocation past 2^64. */
  ghost predicate NoWrap(f: Fields, requests: seq<Request>)
  {
    f.reserveSize + 8 <= WORD
    && forall k | 0 <= k < |requests| :: f.reserveSize + requests[k].size + 8 <= WORD
  }

  /** After one push the remaining requests still cannot wrap. */
  lemma NoWrapTail(f: Fields, requests: seq<Request>)
    requires NoWrap(f, requests) && requests != []
    ensures NoWrap(PushStep(f, requests[0].size, requests[0].granted).fields, requests[1..])
  {
    var f' := PushStep(f, requests[0].size, requests[0].granted).fields;
    forall k | 0 <= k < |requests[1..]|
      ensures f'.reserveSize + requests[1..][k].size + 8 <= WORD
    {
      assert requests[1..][k] == requests[k + 1];
    }
  }

  /**
   * Without wrap-around, a run of pushes keeps the arena consistent and only
   * moves the cursor and the commit position forward.
   */
  lemma {:induction false} PushAllMonotone(f: Fields, requests: seq<Request>)
    requires Consistent(f) && NoWrap(f, requests)
    ensures var g := PushAll(f, requests);
      && Consistent(g)
      && g.reserveSize == f.reserveSize && g.commitSize == f.commitSize
      && f.pos <= g.pos && f.commitPos <= g.commitPos
    decreases |requests|
  {
    if requests != [] {
      var f' := PushStep(f, requests[0].size, requests[0].granted).fields;
      PushPreservesConsistent(f, requests[0].size, requests[0].granted);
      PushPlacement(f, requests[0].size, requests[0].granted);
      NoWrapTail(f, requests);
      PushAllMonotone(f', requests[1..]);
    }
  }

  /** Each block ends at or before the start of every later block, so no two overlap. */
  ghost predicate Ordered(bs: seq<Block>)
  {
    forall i, j | 0 <= i < j < |bs| :: bs[i].start + bs[i].size <= bs[j].start
  }

  /**
   * Without wrap-around, every block a run of pushes hands out is 8-aligned
   * and lies between the starting cursor and the final one.
   */
  lemma {:induction false} BlocksInRange(f: Fields, requests: seq<Request>)
    requires Consistent(f) && NoWrap(f, requests)
    ensures forall b | b in Blocks(f, requests) ::
      b.start % 8 == 0 && f.pos <= b.start && b.start + b.size <= PushAll(f, requests).pos
    decreases |requests|
  {
    if requests != [] {
      var r := requests[0];
      var out := PushStep(f, r.size, r.granted);
      var f' := out.fields;
      PushPreservesConsistent(f, r.size, r.granted);
      PushPlacement(f, r.size, r.granted);
      NoWrapTail(f, requests);
      BlocksInRange(f', requests[1..]);
      PushAllMonotone(f', requests[1..]);
      var bs := Blocks(f, requests);
      var tail := Blocks(f', requests[1..]);
      if out.ptr.Some? {
        assert f.reserveSize + r.size + 8 <= WORD;
        assert out.ptr.value + r.size == f'.pos;
        assert bs == [Block(out.ptr.value, r.size)] + tail;
        forall i | 0 < i < |bs| ensures bs[i] == tail[i - 1] {
        }
      } else {
        assert bs == tail && f' == f;
        forall i | 0 <= i < |bs| ensures bs[i] == tail[i] {
        }
      }
    }
  }

  /**
   * Without wrap-around, the blocks a run of pushes hands out do not
   * overlap: each ends at or before the start of every later one.
   */
  lemma {:induction false} BlocksDisjoint(f: Fields, requests: seq<Request>)
    requires Consistent(f) && NoWrap(f, requests)
    ensures Ordered(Blocks(f, requests))
    decreases |requests|
  {
    if requests != [] {
      var r := requests[0];
      var out := PushStep(f, r.size, r.granted);
      var f' := out.fields;
      var rest := requests[1..];
      PushPreservesConsistent(f, r.size, r.granted);
      NoWrapTail(f, requests);
      BlocksDisjoint(f', rest);
      BlocksInRange(f', rest);
      var bs := Blocks(f, requests);
      var tail := Blocks(f', rest);
      if out.ptr.Some? {
        var b := Block(out.ptr.value, r.size);
        assert bs == [b] + tail;
        assert b.start + b.size == f'.pos;
        forall i, j | 0 <= i < j < |bs| ensures bs[i].start + bs[i].size <= bs[j].start {
          assert bs[j] == tail[j - 1];
          if i > 0 {
            assert bs[i] == tail[i - 1];
            assert i - 1 < j - 1;
          } else {
            assert bs[0] == b && tail[j - 1] in tail;
          }
        }
      } else {
        assert bs == tail;
      }
    }
  }

  /**
   * The rollback law: after a checkpoint `c = pos` (not 0), any run of pushes
   * without wrap-around, and `pop_to(c)`, the cursor is back at `c`, nothing
   * committed is given back, and a push that would have succeeded straight
   * after the checkpoint succeeds after the rollback too, at the same offset
   * (and any two successful pushes there share their offset).
   */
  lemma {:induction false} RollbackReusesOffset(f: Fields, requests: seq<Request>,
                                                size: usize, granted: bool,
                                                size': usize, granted': bool)
    requires Consistent(f) && NoWrap(f, requests) && f.pos != 0
    ensures var g := PushAll(f, requests);
      var popped := PopToStep(g, f.pos);
      && popped.Rewound?
      && popped.fields.pos == f.pos
      && popped.fields.commitPos >= f.commitPos
      && Consistent(popped.fields)
      && (PushStep(f, size, granted).ptr.Some? ==>
            PushStep(popped.fields, size, granted).ptr == PushStep(f, size, granted).ptr)
      && (PushStep(popped.fields, size, granted).ptr.Some? && PushStep(f, size', granted').ptr.Some? ==>
            PushStep(popped.fields, size, granted).ptr == PushStep(f, size', granted').ptr)
  {
    PushAllMonotone(f, requests);
  }

  /** A size that is already a multiple of a power-of-two alignment is left as it is. */
  lemma AlignUpExact(size: usize, alignment: usize)
    requires IsPowerOfTwo(alignment) && size % alignment == 0 && size + alignment <= WORD
    ensures AlignUp(size, alignment) == size
  {
    AlignUpPowerOfTwo(size, alignment);
    AlignUpLeast(size, alignment, size);
  }

  /** Just past one multiple of a power of two `q`, rounding up reaches the next multiple. */
  lemma AlignUpToNextMultiple(q: usize, d: usize)
    requires IsPowerOfTwo(q) && 0 < d < q && 2 * q + d <= WORD
    ensures AlignUp(q + d, q) == 2 * q
  {
    DivModUnique(2 * q, q, 2, 0);
    AlignUpLeast(q + d, q, 2 * q);
    AlignUpPowerOfTwo(q + d, q);
    var r := AlignUp(q + d, q);
    DivMod(r, q);
    MulOrder(q, 1, r / q);
  }

  /** `new` with 64 pages reserved and a commit granularity of 32 pages keeps both sizes. */
  lemma CreatedWholePages(p: usize)
    requires IsPowerOfTwo(p) && 65 * p <= WORD
    ensures Created(64 * p, 32 * p, p, true, true) == Some(Fields(64 * p, 32 * p, 0, 32 * p))
  {
    DivModUnique(64 * p, p, 64, 0);
    DivModUnique(32 * p, p, 32, 0);
    AlignUpExact(64 * p, p);
    AlignUpExact(32 * p, p);
  }

  /**
   * A sample run: 64 pages reserved with a commit granularity of
   * 32 pages; a 10-byte push needs no commit; a second push of 32 pages
   * crosses the commit position and commits exactly the next 32 pages.
   */
  lemma CommitOnDemandScenario(p: usize)
    requires IsPowerOfTwo(p) && 65 * p <= WORD
    ensures var f := Created(64 * p, 32 * p, p, true, true);
      && f == Some(Fields(64 * p, 32 * p, 0, 32 * p))
      && var first := PushStep(f.value, 10, true);
      && first == Pushed(Fields(64 * p, 32 * p, 10, 32 * p), Some(0), [])
      && var second := PushStep(first.fields, 32 * p, true);
      && second == Pushed(Fields(64 * p, 32 * p, 16 + 32 * p, 64 * p), Some(16),
                          [CommitCall(32 * p, 32 * p, true)])
  {
    CreatedWholePages(p);
    ScenarioFirstPush(p);
    ScenarioSecondPush(p, 10);
  }

  lemma ScenarioFirstPush(p: usize)
    requires 1 <= p && 65 * p <= WORD
    ensures PushStep(Fields(64 * p, 32 * p, 0, 32 * p), 10, true)
         == Pushed(Fields(64 * p, 32 * p, 10, 32 * p), Some(0), [])
  {
    AlignUpOfZero(8);
  }

  lemma ScenarioSecondPush(p: usize, pos: usize)
    requires IsPowerOfTwo(p) && 65 * p <= WORD && 8 < pos <= 16
    ensures PushStep(Fields(64 * p, 32 * p, pos, 32 * p), 32 * p, true)
         == Pushed(Fields(64 * p, 32 * p, 16 + 32 * p, 64 * p), Some(16),
                   [CommitCall(32 * p, 32 * p, true)])
  {
    AlignUpPastEight(pos);
    ScenarioCommitEnd(p);
    PushWithCommit(Fields(64 * p, 32 * p, pos, 32 * p), 32 * p, 16, 64 * p);
  }

  /** The second push ends 16 bytes past the first commit, which rounds up to the next one. */
  lemma ScenarioCommitEnd(p: usize)
    requires IsPowerOfTwo(p) && 65 * p <= WORD
    ensures AlignUp(16 + 32 * p, 32 * p) == 64 * p
  {
    var k: nat :| Pow2(k) == p;
    Pow2Add(k, 5);
    assert Pow2(5) == 32;
    assert IsPowerOfTwo(32 * p);
    AlignUpToNextMultiple(32 * p, 16);
  }

  lemma AlignUpPastEight(pos: usize)
    requires 8 < pos <= 16
    ensures AlignUp(pos, 8) == 16
  {
    assert Pow2(3) == 8;
    AlignUpPowerOfTwo(pos, 8);
  }

  /* ---------------------------------------------------------------------
   * The Arena object
   * ------------------------------------------------------------------- */

  class Arena {
    var reserveSize: usize
    var commitSize: usize
    var pos: usize
    var commitPos: usize
    /** The reserved range; index `i` is the byte at `base + i`. */
    const memory: array<bv8>
    /** Every commit the arena has asked the OS for, with the OS's answer. */
    ghost var commitLog: seq<CommitCall>

    ghost predicate Valid()
      reads this
    {
      memory.Length == reserveSize && pos <= reserveSize
    }

    /** The arena's fields as a value. */
    function State(): Fields
      reads this
    {
      Fields(reserveSize, commitSize, pos, commitPos)
    }

    /** The struct literal at the end of `new`: cursor at 0, commit position at the commit size. */
    constructor Reserved(reserveSize: usize, commitSize: usize, ghost log: seq<CommitCall>)
      ensures Valid() && fresh(memory)
      ensures State() == Fields(reserveSize, commitSize, 0, commitSize) && commitLog == log
    {
      this.reserveSize := reserveSize;
      this.commitSize := commitSize;
      this.pos := 0;
      this.commitPos := commitSize;
      this.memory := new bv8[reserveSize];
      this.commitLog := log;
    }

    /**
     * `Arena::new`: round both sizes up to the page size, reserve, commit one
     * page at the base, and build the arena; null when either OS call fails.
     */
    static method New(reserveSize: usize, commitSize: usize, pageSize: usize,
                      reserveGranted: bool, commitGranted: bool) returns (arena: Arena?)
      ensures var r := Created(reserveSize, commitSize, pageSize, reserveGranted, commitGranted);
        && (arena == null <==> r.None?)
        && (arena != null ==>
              && fresh(arena) && fresh(arena.memory) && arena.Valid()
              && arena.State() == r.value
              && arena.commitLog == InitialCommit(pageSize, reserveGranted, commitGranted))
    {
      var actualReserve := AlignUp(reserveSize, pageSize);
      var actualCommit := AlignUp(commitSize, pageSize);
      if !reserveGranted {
        return null;
      }
      if !commitGranted {
        return null;
      }
      arena := new Arena.Reserved(actualReserve, actualCommit, [CommitCall(0, pageSize, true)]);
    }

    /**
     * `push(size)`: align the cursor to 8, check the reservation, commit
     * more on demand (clamped to the reservation), then advance the cursor.
     * `granted` is the OS's answer if a commit is requested.
     */
    method Push(size: usize, granted: bool) returns (ptr: Option<usize>)
      requires Valid()
      modifies this
      ensures Valid()
      ensures var out := PushStep(old(State()), size, granted);
        State() == out.fields && ptr == out.ptr && commitLog == old(commitLog) + out.calls
      ensures old(Consistent(State())) ==> Consistent(State())
      ensures old(Consistent(State()) && CoversPrefix(commitLog, commitPos)) ==> CoversPrefix(commitLog, commitPos)
    {
      ghost var f, log := State(), commitLog;
      if Consistent(f) {
        PushPreservesConsistent(f, size, granted);
        if CoversPrefix(log, f.commitPos) {
          PushKeepsCommittedPrefix(f, size, granted, log);
        }
      }
      ghost var out := PushStep(f, size, granted);
      var positionAligned := AlignUp(pos, 8);
      var newPosition := WrappingAdd(positionAligned, size);
      if newPosition > reserveSize {
        assert out == Pushed(f, None, []);
        return None;
      }
      if newPosition > commitPos {
        var newCommitPos := AlignUp(newPosition, commitSize);
        if newCommitPos > reserveSize {
          newCommitPos := reserveSize;
        }
        var commitDelta := WrappingSub(newCommitPos, commitPos);
        commitLog := commitLog + [CommitCall(commitPos, commitDelta, granted)];
        if !granted {
          assert out == Pushed(f, None, [CommitCall(f.commitPos, commitDelta, granted)]);
          return None;
        }
        commitPos := newCommitPos;
      }
      pos := newPosition;
      assert out.fields == State() && out.ptr == Some(positionAligned);
      return Some(positionAligned);
    }

    /**
     * `push_zeroed(size)`: `push`, then zero the `size` bytes at the returned
     * offset. Requires that the end of the allocation does not wrap past
     * 2^64 unless the wrapped end fails the capacity check: a wrapped end
     * that passes it makes `push` succeed with a block running past the
     * reservation, which the fill would then write through.
     */
    method PushZeroed(size: usize, granted: bool) returns (ptr: Option<usize>)
      requires Valid()
      requires AlignUp(pos, 8) + size < WORD || WrappingAdd(AlignUp(pos, 8), size) > reserveSize
      modifies this, memory
      ensures Valid()
      ensures var out := PushStep(old(State()), size, granted);
        State() == out.fields && ptr == out.ptr && commitLog == old(commitLog) + out.calls
      ensures ptr.Some? ==> ptr.value + size <= memory.Length
      ensures ptr.Some? ==> forall i | ptr.value <= i < ptr.value + size :: memory[i] == 0
      ensures forall i | 0 <= i < memory.Length && !(ptr.Some? && ptr.value <= i < ptr.value + size) ::
        memory[i] == old(memory[i])
    {
      ptr := Push(size, granted);
      if ptr.Some? {
        var start := ptr.value;
        forall i | start <= i < start + size {
          memory[i] := 0;
        }
      }
    }

    /** `pos()`: the cursor, to be kept as a checkpoint. */
    function Pos(): (p: usize)
      reads this
      ensures p == State().pos
    {
      pos
    }

    /**
     * `pop_to(target)`: rewind the cursor; `panicked` stands for the panic
     * when `target` is ahead of the cursor or is 0, which changes nothing.
     */
    method PopTo(target: usize) returns (panicked: bool)
      requires Valid()
      modifies this
      ensures Valid() && commitLog == old(commitLog)
      ensures panicked <==> PopToStep(old(State()), target).Panicked?
      ensures State() == if panicked then old(State()) else PopToStep(old(State()), target).fields
    {
      if target > pos || target == 0 {
        return true;
      }
      pos := target;
      return false;
    }
  }
}

=== FILE: prng.dfy ===
/**
 * The PCG32 generator ("XSH RR 64/32" in the PCG family): a 64-bit linear
 * congruential state step, and a 32-bit output made by a xorshift of the
 * high bits followed by a rotation chosen by the top five bits.
 *
 * The state and the increment are `u64` values and the state step is
 * arithmetic modulo 2^64 (which is what `wrapping_mul` and `wrapping_add`
 * compute); the output is computed on the bits of the state, as `bv64` and
 * `bv32`, where Rust's shifts, xor and truncating casts are Dafny's own.
 */
module Pcg {
  import opened Usize

  /** The LCG multiplier. */
  const MULTIPLIER: u64 := 6364136223846793005

  /** The inverse of the multiplier modulo 2^64. */
  const INVERSE: u64 := 0xc097ef87329e28a5

  /** The fields `Default::default` gives. */
  const DEFAULT_STATE: u64 := 0x853c49e6748fea9b
  const DEFAULT_INC: u64 := 0xda3e39cb94b95bdb

  /* ---------------------------------------------------------------------
   * The state step
   * ------------------------------------------------------------------- */

  /**
   * One LCG step: `state.wrapping_mul(MULTIPLIER).wrapping_add(inc)`.
   * `Unstep` undoes it, so the step loses nothing about the state.
   */
  function Step(state: u64, inc: u64): (r: u64)
    ensures Unstep(r, inc) == state
  {
    var x := state * MULTIPLIER + inc;
    DivMod(x, WORD);
    InverseValue();
    var q, t := x / WORD, x % WORD;
    assert (t - inc) * INVERSE == state + (state * 0x4271_e21c_27cc_ec3e - q * INVERSE) * WORD;
    DivModUnique((t - inc) * INVERSE, WORD, state * 0x4271_e21c_27cc_ec3e - q * INVERSE, state);
    t
  }

  /** The step run backwards: subtract the increment, multiply by the inverse. */
  function Unstep(state: u64, inc: u64): u64
  {
    ((state - inc) * INVERSE) % WORD
  }

  lemma InverseValue()
    ensures MULTIPLIER * INVERSE == 1 + 0x4271_e21c_27cc_ec3e * WORD
  {
  }

  /** Every state has a predecessor: the step is onto, so it permutes the 2^64 states. */
  lemma StepUnstep(state: u64, inc: u64)
    ensures Step(Unstep(state, inc), inc) == state
  {
    var y := (state - inc) * INVERSE;
    DivMod(y, WORD);
    var q, s := y / WORD, y % WORD;
    InverseValue();
    assert s * MULTIPLIER + inc == state + ((state - inc) * 0x4271_e21c_27cc_ec3e - q * MULTIPLIER) * WORD;
    DivModUnique(s * MULTIPLIER + inc, WORD, (state - inc) * 0x4271_e21c_27cc_ec3e - q * MULTIPLIER, state);
  }

  /** Two states that step to the same state are the same state. */
  lemma StepInjective(s1: u64, s2: u64, inc: u64)
    ensures Step(s1, inc) == Step(s2, inc) <==> s1 == s2
  {
    assert Unstep(Step(s1, inc), inc) == s1 && Unstep(Step(s2, inc), inc) == s2;
  }

  /**
   * With an odd increment the step flips the lowest bit of the state (the
   * odd multiplier keeps it, the increment flips it), so the low bit
   * alternates from one draw to the next.
   */
  lemma StepAlternatesParity(state: u64, inc: u64)
    requires inc % 2 == 1
    ensures Step(state, inc) % 2 != state % 2
  {
    var x := state * MULTIPLIER + inc;
    DivMod(x, WORD);
    var q := x / WORD;
    var k := state * 0x2c28_fa16_a64a_bf96 - q * 0x8000_0000_0000_0000 + state / 2 + inc / 2;
    DivMod(state, 2);
    DivMod(inc, 2);
    assert Step(state, inc) == 2 * k + state % 2 + 1;
    if state % 2 == 0 {
      DivModUnique(Step(state, inc), 2, k, 1);
    } else {
      DivModUnique(Step(state, inc), 2, k + 1, 0);
    }
  }

  /* ---------------------------------------------------------------------
   * The output permutation
   * ------------------------------------------------------------------- */

  /** `(((s >> 18) ^ s) >> 27) as u32`: the cast keeps the low 32 bits. */
  function Xorshifted(s: bv64): bv32
  {
    ((((s >> 18) ^ s) >> 27) & 0xFFFF_FFFF) as bv32
  }

  /**
   * Bit i of the xorshifted word is bit i + 27 of the state xor'ed with
   * bit i + 45 ...
   */
  lemma XorshiftedLowBits(s: bv64, i: bv32)
    requires i < 19
    ensures ((Xorshifted(s) >> i) & 1) as bv64 == ((s >> (i as bv64 + 27)) ^ (s >> (i as bv64 + 45))) & 1
  {
  }

  /** ... and for i >= 19 that second bit lies beyond bit 63, so it is bit i + 27 alone. */
  lemma XorshiftedHighBits(s: bv64, i: bv32)
    requires 19 <= i < 32
    ensures ((Xorshifted(s) >> i) & 1) as bv64 == (s >> (i as bv64 + 27)) & 1
  {
  }

  /** The rotation amount `(s >> 59) as u32`: the top five bits of the state. */
  function Rotation(s: bv64): (r: bv32)
    ensures r < 32
  {
    (s >> 59) as bv32
  }

  /**
   * `u32::rotate_right` for amounts below 32: the bits shifted out on the
   * right come back in on the left. It agrees with the shift-or form
   * `(x >> r) | (x << ((-r) & 31))`, which needs no special case for 0.
   */
  function RotateRight(x: bv32, r: bv32): (y: bv32)
    requires r < 32
    ensures y == (x >> r) | (x << ((-r) & 31))
  {
    if r == 0 then x
    else
      NegateMask(r);
      (x >> r) | (x << (32 - r))
  }

  /** Bit i of `x` rotated right by `r` is bit `(i + r) mod 32` of `x`. */
  lemma RotateRightBits(x: bv32, r: bv32, i: bv32)
    requires r < 32 && i < 32
    ensures (RotateRight(x, r) >> i) & 1 == (x >> ((i + r) & 31)) & 1
  {
    if r != 0 {
      if i + r < 32 {
        ShiftedOutBit(x, r, i);
      } else {
        WrappedAroundBit(x, r, i);
      }
    }
  }

  /** A bit that stays within the word under the right shift. */
  lemma ShiftedOutBit(x: bv32, r: bv32, i: bv32)
    requires 0 < r < 32 && i < 32 && i + r < 32
    ensures (RotateRight(x, r) >> i) & 1 == (x >> ((i + r) & 31)) & 1
  {
    assert (i + r) & 31 == i + r;
  }

  /** A bit that wraps around from the low end of the word to the high end. */
  lemma WrappedAroundBit(x: bv32, r: bv32, i: bv32)
    requires 0 < r < 32 && i < 32 && 32 <= i + r
    ensures (RotateRight(x, r) >> i) & 1 == (x >> ((i + r) & 31)) & 1
  {
    assert (i + r) & 31 == i + r - 32;
  }

  lemma NegateMask(r: bv32)
    requires 0 < r < 32
    ensures (-r) & 31 == 32 - r
  {
  }

  /**
   * The output permutation on the bits of the state: the xorshifted word
   * rotated right by the rotation amount, which is the shift-or rotation by
   * the top five bits of the state.
   */
  function XshRr(s: bv64): (y: bv32)
    ensures y == (Xorshifted(s) >> Rotation(s)) | (Xorshifted(s) << ((-Rotation(s)) & 31))
  {
    RotateRight(Xorshifted(s), Rotation(s))
  }

  /** The 32-bit output drawn from the state before the step. */
  function Output(state: u64): bv32
  {
    XshRr(state as bv64)
  }

  /* ---------------------------------------------------------------------
   * Seeding
   * ------------------------------------------------------------------- */

  /**
   * `(seq << 1) | 1`: the shift drops the top bit of the sequence number
   * and leaves the low bit clear, which the `| 1` then sets. The increment
   * is odd and keeps the low 63 bits of the sequence number.
   */
  function IncrementFor(initSeq: u64): (inc: u64)
    ensures inc % 2 == 1
    ensures inc / 2 == initSeq % 0x8000_0000_0000_0000
  {
    DivMod(2 * initSeq, WORD);
    (2 * initSeq) % WORD + 1
  }

  /**
   * The state `new` ends with: one step from 0, the initial state added,
   * and one more step (the draw `next_f32` makes). The initial state can be
   * read back from it by undoing the last step and subtracting the first.
   */
  function Seeded(initState: u64, inc: u64): (s: u64)
    ensures WrappingSub(Unstep(s, inc), Step(0, inc)) == initState
  {
    Step(WrappingAdd(Step(0, inc), initState), inc)
  }

  /** Different initial states seed different states, for the same increment. */
  lemma SeededInjective(s1: u64, s2: u64, inc: u64)
    ensures Seeded(s1, inc) == Seeded(s2, inc) <==> s1 == s2
  {
    StepInjective(WrappingAdd(Step(0, inc), s1), WrappingAdd(Step(0, inc), s2), inc);
  }

  /* ---------------------------------------------------------------------
   * The generator object
   * ------------------------------------------------------------------- */

  class Pcg32 {
    var state: u64
    var inc: u64

    /** An odd increment gives the LCG its full period of 2^64. */
    ghost predicate Valid()
      reads this
    {
      inc % 2 == 1
    }

    /** The generator with the fixed default state and increment. */
    constructor Default()
      ensures state == DEFAULT_STATE && inc == DEFAULT_INC
      ensures Valid()
    {
      state := DEFAULT_STATE;
      inc := DEFAULT_INC;
    }

    /**
     * Advances the state one LCG step and returns the output of the state
     * before the step; the increment never changes.
     */
    method NextU32() returns (r: bv32)
      modifies this
      ensures state == Step(old(state), old(inc))
      ensures inc == old(inc)
      ensures r == Output(old(state))
      ensures old(Valid()) ==> Valid()
    {
      var oldState := state;
      state := Step(oldState, inc);
      r := Output(oldState);
    }

    /**
     * Seeds a generator: the increment comes from the sequence number, the
     * state from 0 is stepped once, the initial state is added, and the
     * state is stepped once more.
     */
    constructor New(initState: u64, initSeq: u64)
      ensures inc == IncrementFor(initSeq)
      ensures state == Seeded(initState, inc)
      ensures Valid()
    {
      state := 0;
      inc := IncrementFor(initSeq);
      new;
      var _ := NextU32();
      state := WrappingAdd(state, initState);
      var _ := NextU32();
    }
  }
}

=== FILE: usize.dfy ===
/**
 * Machine words: Rust's `usize` on a 64-bit target, and `u64`.
 *
 * A `usize` is modelled as a bounded integer rather than a `bv64`, so that
 * offsets into the arena's memory can be used as array indices directly.
 * Of the two bitwise operators the arena uses, `&` is defined bit by bit on
 * integers and `!` as the subtraction `2^64 - 1 - m`, with a contract that
 * states its bit-level meaning. The lemmas below connect them with ordinary
 * arithmetic (`%` by a power of two, subtraction).
 */
module Usize {

  /** 2^64: the number of distinct `usize` values. */
  const WORD: int := 0x1_0000_0000_0000_0000

  type usize = x: int | 0 <= x < WORD

  /** Rust's `u64`: the same range as `usize` on a 64-bit target. */
  type u64 = usize

  /** Two to the power `n`. */
  function Pow2(n: nat): (p: nat)
    ensures p >= 1
  {
    if n == 0 then 1 else 2 * Pow2(n - 1)
  }

  /** `a` is one of 1, 2, 4, 8, ... */
  ghost predicate IsPowerOfTwo(a: int)
  {
    exists k: nat :: Pow2(k) == a
  }

  lemma {:induction false} Pow2Add(a: nat, b: nat)
    ensures Pow2(a + b) == Pow2(a) * Pow2(b)
  {
    if a > 0 {
      Pow2Add(a - 1, b);
    }
  }

  lemma Pow2Values()
    ensures Pow2(3) == 8 && Pow2(64) == WORD
  {
    assert Pow2(8) == 256;
    Pow2Add(8, 8);
    assert Pow2(16) == 0x1_0000;
    Pow2Add(16, 16);
    assert Pow2(32) == 0x1_0000_0000;
    Pow2Add(32, 32);
  }

  /** `a.wrapping_add(b)`, and also `a + b` in a build without overflow checks. */
  function WrappingAdd(a: usize, b: usize): (r: usize)
    ensures a + b < WORD ==> r == a + b
    ensures a + b >= WORD ==> r == a + b - WORD
  {
    (a + b) % WORD
  }

  /** `a.wrapping_sub(b)`, and also `a - b` in a build without overflow checks. */
  function WrappingSub(a: usize, b: usize): (r: usize)
    ensures b <= a ==> r == a - b
    ensures a < b ==> r == a - b + WORD
  {
    (a - b) % WORD
  }

  /**
   * Bitwise AND of two naturals: bit i of the result is set exactly when
   * bit i is set in both `x` and `y`.
   */
  function BitAnd(x: nat, y: nat): (r: nat)
    ensures r <= x && r <= y
    decreases x
  {
    if x == 0 then 0
    else 2 * BitAnd(x / 2, y / 2) + (if x % 2 == 1 && y % 2 == 1 then 1 else 0)
  }

  /**
   * Bitwise complement `!m` of a 64-bit word: it shares no bit with `m`,
   * and together the two cover all 64 bits.
   */
  function BitNot(m: usize): (r: usize)
    ensures BitAnd(m, r) == 0 && BitAnd(r, m) == 0
    ensures r + m == WORD - 1
  {
    Pow2Values();
    BitAndComplementZero(m, 64);
    BitAndComplementZero(WORD - 1 - m, 64);
    WORD - 1 - m
  }

  lemma MulNonNegative(a: int, b: int)
    requires a >= 0 && b >= 0
    ensures a * b >= 0
  {
  }

  /** Multiplying by a positive `a` keeps order, and distinct multiples of `a` are at least `a` apart. */
  lemma MulOrder(a: int, i: int, j: int)
    requires a > 0
    ensures i < j <==> a * i < a * j
    ensures i < j ==> a * i + a <= a * j
  {
    if i < j {
      MulNonNegative(a, j - i - 1);
      assert a * j == a * i + a * (j - i - 1) + a;
    } else {
      MulNonNegative(a, i - j);
      assert a * i == a * j + a * (i - j);
    }
  }

  lemma DivMod(x: int, d: int)
    requires d > 0
    ensures x == d * (x / d) + x % d && 0 <= x % d < d
  {
  }

  /** Subtracting the remainder by `d` rounds down to a multiple of `d`. */
  lemma RoundDown(x: int, d: int, r: int)
    requires d > 0 && r == x - x % d
    ensures r % d == 0 && x - d < r <= x
  {
    DivMod(x, d);
    DivModUnique(r, d, x / d, 0);
  }

  /** Division by `d` is unique: a quotient and remainder in range are the ones `/` and `%` give. */
  lemma DivModUnique(x: int, d: int, q: int, r: int)
    requires d > 0 && x == d * q + r && 0 <= r < d
    ensures x / d == q && x % d == r
  {
    var q', r' := x / d, x % d;
    assert x == d * q' + r' && 0 <= r' < d;
    if q < q' {
      MulNonNegative(d, q' - q - 1);
      assert false;
    } else if q > q' {
      MulNonNegative(d, q - q' - 1);
      assert false;
    }
  }

  /** Taking the remainder by 2P removes the same bits as halving, reducing by P and doubling back. */
  lemma ModDouble(x: nat, p: nat)
    requires p >= 1
    ensures x % (2 * p) == 2 * ((x / 2) % p) + x % 2
  {
    var q, b := x / 2, x % 2;
    var s, t := q / p, q % p;
    assert x == (2 * p) * s + (2 * t + b);
    DivModUnique(x, 2 * p, s, 2 * t + b);
  }

  /**
   * For an `n`-bit word `x`, the bits of `x` that are set in `y` and the
   * bits of `x` that are set in the `n`-bit complement of `y` add up to `x`.
   */
  lemma {:induction false} BitAndComplement(x: nat, y: nat, n: nat)
    requires x < Pow2(n) && y < Pow2(n)
    ensures BitAnd(x, y) + BitAnd(x, Pow2(n) - 1 - y) == x
  {
    if n > 0 && x > 0 {
      var c := Pow2(n) - 1 - y;
      assert c == 2 * (Pow2(n - 1) - 1 - y / 2) + (1 - y % 2);
      assert c / 2 == Pow2(n - 1) - 1 - y / 2;
      assert c % 2 == 1 - y % 2;
      BitAndComplement(x / 2, y / 2, n - 1);
    }
  }

  /** An `n`-bit word and its `n`-bit complement have no bit in common. */
  lemma {:induction false} BitAndComplementZero(x: nat, n: nat)
    requires x < Pow2(n)
    ensures BitAnd(x, Pow2(n) - 1 - x) == 0
  {
    if x > 0 {
      var c := Pow2(n) - 1 - x;
      assert n > 0;
      assert c == 2 * (Pow2(n - 1) - 1 - x / 2) + (1 - x % 2);
      assert c / 2 == Pow2(n - 1) - 1 - x / 2;
      assert c % 2 == 1 - x % 2;
      BitAndComplementZero(x / 2, n - 1);
    }
  }

  /** Masking `x` with `y` cannot set a bit that `y` and `m` do not share. */
  lemma {:induction false} BitAndDisjoint(x: nat, y: nat, m: nat)
    requires BitAnd(y, m) == 0
    ensures BitAnd(BitAnd(x, y), m) == 0
    decreases x
  {
    if x > 0 && y > 0 {
      assert BitAnd(y, m) == 2 * BitAnd(y / 2, m / 2) + (if y % 2 == 1 && m % 2 == 1 then 1 else 0);
      BitAndDisjoint(x / 2, y / 2, m / 2);
      var a := BitAnd(x, y);
      var b := if x % 2 == 1 && y % 2 == 1 then 1 else 0;
      assert a == 2 * BitAnd(x / 2, y / 2) + b;
      assert a / 2 == BitAnd(x / 2, y / 2) && a % 2 == b;
    }
  }

  /** Masking with a multiple of `2^k` gives a multiple of `2^k`: the low `k` bits stay clear. */
  lemma {:induction false} BitAndMultiple(x: nat, y: nat, k: nat)
    requires y % Pow2(k) == 0
    ensures BitAnd(x, y) % Pow2(k) == 0
  {
    if k == 0 {
      assert Pow2(0) == 1;
    } else if x == 0 {
      DivModUnique(0, Pow2(k), 0, 0);
    } else {
      var p := Pow2(k - 1);
      HalveMultiple(y, p);
      BitAndMultiple(x / 2, y / 2, k - 1);
      assert BitAnd(x, y) == 2 * BitAnd(x / 2, y / 2);
      DoubleMultiple(BitAnd(x / 2, y / 2), p);
    }
  }

  /** A multiple of `2p` is even, and its half is a multiple of `p`. */
  lemma HalveMultiple(y: nat, p: nat)
    requires p >= 1 && y % (2 * p) == 0
    ensures y % 2 == 0 && (y / 2) % p == 0
  {
    ModDouble(y, p);
  }

  /** Twice a multiple of `p` is a multiple of `2p`. */
  lemma DoubleMultiple(a: nat, p: nat)
    requires p >= 1 && a % p == 0
    ensures (2 * a) % (2 * p) == 0
  {
    DivMod(a, p);
    var q := a / p;
    assert 2 * a == (2 * p) * q;
    DivModUnique(2 * a, 2 * p, q, 0);
  }

  /** Masking with `2^k - 1` keeps the low `k` bits: it is the remainder by `2^k`. */
  lemma {:induction false} BitAndLowMask(x: nat, k: nat)
    ensures BitAnd(x, Pow2(k) - 1) == x % Pow2(k)
  {
    if k == 0 {
      assert BitAnd(x, 0) == 0;
    } else if x == 0 {
      DivModUnique(0, Pow2(k), 0, 0);
    } else {
      var p, m := Pow2(k - 1), Pow2(k) - 1;
      assert Pow2(k) == 2 * p && m == 2 * (p - 1) + 1;
      assert m / 2 == p - 1 && m % 2 == 1;
      assert BitAnd(x, m) == 2 * BitAnd(x / 2, p - 1) + x % 2;
      BitAndLowMask(x / 2, k - 1);
      ModDouble(x, p);
      assert BitAnd(x, m) == x % (2 * p);
    }
  }

  /** Masking off the low `k` bits of a word subtracts its remainder by `2^k`. */
  lemma BitAndNotLowMask(x: usize, k: nat)
    requires Pow2(k) <= WORD
    ensures BitAnd(x, BitNot(Pow2(k) - 1)) == x - x % Pow2(k)
  {
    BitAndNot(x, Pow2(k) - 1);
    BitAndLowMask(x, k);
  }

  /** `x & !m == x - (x & m)` on 64-bit words. */
  lemma BitAndNot(x: usize, m: usize)
    ensures BitAnd(x, BitNot(m)) == x - BitAnd(x, m)
  {
    Pow2Values();
    BitAndComplement(x, m, 64);
  }
}
